=== FILE: README.md ===
# NewsSentiment Pro — a Dafny model of the request path

NewsSentiment Pro is a dashboard that asks a prediction service for a buy /
sell-neutral signal on a stock ticker. This project models, in Dafny, the three
pieces of it that hold real logic and proves properties of them:

1. **The dashboard's request orchestration** (`frontend/src/App.tsx`, with the
   identical `fetchLiveSignal` helper of `frontend/src/api.ts`): the one-time
   authentication bootstrap that publishes `isAuthReady` and `userId`; the
   ticker input and the submit button's disabled predicate; `fetchPrediction`,
   which sets `loading`, `error` and `response`; the request it sends and the
   error message it derives from a failed response; and the display
   derivations (placeholder model, the date cut out of `model_timestamp`, the
   buy label, the 'N/A' feature cells).
2. **The per-client sliding-window rate limiter** (`rate_limit_middleware` in
   `backend/app/main.py`, limits from `backend/app/core/config.py`).
3. **The live-prediction endpoint** (`predict_live` in
   `backend/app/api/endpoints.py`): ticker validation against the model's
   metadata, feature assembly in metadata order, the threshold rule and the
   output record.

Files and modules:

| file | module | models |
|---|---|---|
| `common.dfy` | `Common` | `Option` (JavaScript `null`/`undefined`, Python `None`) and `Result` (a raised error) |
| `text.dfy` | `Text` | ASCII upper-casing, `maxLength` truncation, JavaScript `split`, decimal rendering, Python `repr` of a string list |
| `wire.dfy` | `Wire` | the success body of `/predict/live` shared by both sides |
| `api_client.dfy` | `ApiClient` | `fetchLiveSignal`: the request and the response-to-result/message mapping |
| `display.dfy` | `Display` | placeholder, `modelDate`/`modelTime`, `tradeThreshold`, `MainSignalCard`, `FeatureDisplay` |
| `app.dfy` | `App` | UI state, bootstrap, input, button, `fetchPrediction`, and a world of events with its invariant |
| `rate_limit.dfy` | `RateLimit` | the limiter store, one request, runs of requests |
| `predict_live.dfy` | `PredictLive` | the endpoint over abstract collaborators |
| `end_to_end.dfy` | `EndToEnd` | what the page shows for what the endpoint returns |

Modelling choices:

- Every handler is a pure function from state to state. The dashboard's
  `World` adds what the page did to its surroundings: whether the mount effect
  ran, how many fetches await an outcome, the requests sent, and the sign-in
  calls started. Events are the mount effect, an auth notification, an input
  edit, a button click and a fetch outcome. An edit or a click while its
  control is disabled changes nothing. An outcome is delivered only while a
  fetch is in flight.
- The identity provider, `crypto.randomUUID` and `fetch` are not modelled.
  They enter as event parameters: whether the config parses, whether the first
  sign-in call succeeds, the user a notification carries, the random id, and
  the HTTP outcome `Ok(body) | HttpErr(status, parsed error body) | HttpErrNullBody(status, TypeError message) | NetworkErr(message)`.
- The endpoint's collaborators (the Polygon fetchers, FinBERT sentiment,
  `compute_features`, the scaler and XGBoost) are the function-valued fields of
  `PredictLive.Services`. The price fetcher returns a `Result` because it
  raises HTTP 503/404. Probabilities and thresholds are `real`.
- Limiter timestamps are `datetime.now()` readings in integer microseconds,
  so the 60-second window is `60 * 1_000_000`.
- Upper-casing is ASCII-only, on both sides.
- A 2xx body is the endpoint's output record (`Wire.Prediction`). The feature
  snapshot is a map, so a missing key is representable, and `signal` is an
  unchecked integer. The dashboard validates neither.

What the dashboard code does and does not do:

- There is one request mode (live), not two, and there is no response
  normaliser.
- There are no request sequence numbers. Single-in-flight rests only on the
  button being disabled while loading (`App.SingleInFlight`).
- Nothing ties an outcome to the submission that started it
  (`App.SettledBodyNotMatchedToRequest`).
- A failed response whose body is not JSON shows the fixed "unknown API
  error" text, not a message naming the status code
  (`ApiClient.UnparsedErrorHidesStatus`).
- The probability is not clamped for display (`Display.PercentIsNotClamped`).
- A truthy `detail` whose string rendering is empty, such as `[]`, gives an
  error with an empty message. The page then shows its own fallback text
  (`App.Settle`).
- `modelTime` is computed but never rendered (`Display.ModelTime`).
- The trade threshold shown is the literal `'0.50'`.
- Before the first response only the feature cells (all zero) are rendered;
  the signal card and the model-date and threshold cards appear only once a
  response is stored (`Display.PlaceholderRendersOnlyCells`).

## Model

| member | source | states |
|---|---|---|
| Text.Upper | frontend/src/api.ts:42 | upper-casing keeps the length, changes each ASCII letter in place and leaves no lower-case letter |
| Text.UpperIdempotent | backend/app/api/endpoints.py:11 | upper-casing an already upper-cased ticker (as the endpoint does to what the page sends) changes nothing |
| Text.Take | frontend/src/App.tsx:346 | `maxLength` keeps exactly the first min(length, 5) characters: the whole text when it is short enough, otherwise a five-character prefix |
| Text.Split | frontend/src/App.tsx:297 | `split` on a non-empty separator never returns an empty list, its first piece is the text before the leftmost separator, it rejoins to the original, and no piece contains the separator |
| Text.BeforeBarThenSpace | frontend/src/App.tsx:297-298 | cutting before the first `" | "` and then before the first space is cutting before the first space |
| Text.SplitOnePiece | frontend/src/App.tsx:297-299 | `split` returns a single piece exactly when the separator does not occur |
| Text.DecimalRoundTrip | frontend/src/api.ts:48 | the status code rendered into the message reads back as the same number |
| Text.PyReprList | backend/app/api/endpoints.py:16 | the rendered list is bracketed, and it is `[]` exactly for the empty list |
| Text.PyReprListNamesEach | backend/app/api/endpoints.py:16 | the rejection detail's list names every supported ticker in quotes |
| ApiClient.BuildRequest | frontend/src/api.ts:38-43 | every call is a JSON POST to the one fixed live URL whose body ticker is the input upper-cased character by character (same length, each letter a-z mapped to A-Z, everything else kept) |
| ApiClient.RequestIgnoresCase | frontend/src/api.ts:42 | the request depends on the input only up to case |
| ApiClient.StatusMessage | frontend/src/api.ts:48 | the synthesised message is the fixed prefix, the status in decimal, and a closing parenthesis |
| ApiClient.ErrorMessage | frontend/src/api.ts:45-49 | non-2xx: a truthy `detail` is the message, in its `String(...)` rendering, and a non-empty string detail is the message verbatim; a parsed body without a truthy `detail` gives the status message; an unparsable body gives the "unknown API error" literal; the message is empty exactly when a truthy `detail` renders empty (such as `[]`) |
| ApiClient.ReadResponse | frontend/src/api.ts:45-52 | a 2xx body is returned unchanged and is the only success; a non-2xx response fails with exactly the message `ErrorMessage` derives from its status and body, which is empty exactly when a truthy `detail` renders empty; a non-2xx body that is JSON `null` fails with the thrown `TypeError`'s message; a transport failure keeps its own message |
| ApiClient.NullErrorBodyIgnoresStatus | frontend/src/api.ts:47-48 | a non-2xx body that is JSON `null` fails with the `TypeError`'s message alone, whatever the status code |
| ApiClient.StatusMessageInjective | frontend/src/api.ts:48 | two status messages are equal only for equal status codes |
| ApiClient.UnparsedErrorHidesStatus | frontend/src/api.ts:47-48 | an unparsable error body never yields any status-code message, because the substituted `detail` is truthy |
| ApiClient.MissingDetailMessagesDistinguishStatus | frontend/src/api.ts:48 | without a truthy `detail`, two failures give the same message iff their status codes are equal |
| Display.ModelTime | frontend/src/App.tsx:299 | `modelTime` is undefined exactly when the text before the first `" | "` holds no space; otherwise it is a word without spaces. The page computes this value but never renders it |
| Display.ModelDateIsTextBeforeFirstSpace | frontend/src/App.tsx:297-298 | `modelDate` is the timestamp's text before its first space (so the 'N/A' branch is dead), a prefix of the timestamp containing no space |
| Display.MainSignalCard | frontend/src/App.tsx:137-141 | the buy label and emerald styling appear iff `signal === 1`, otherwise sell/neutral; the percentage is `proba * 100` |
| Display.PercentIsNotClamped | frontend/src/App.tsx:141 | a probability of 1.5 shows as 150 percent: nothing clamps it |
| Display.FeatureCell | frontend/src/App.tsx:92-99 | a feature cell reads 'N/A' exactly when its value is missing, else shows the value |
| Display.FeatureCells | frontend/src/App.tsx:111-123 | the five cells follow `sma_10, rsi, vol_20, sentiment, sentiment_ma`; cell i is 'N/A' iff key i is absent |
| Display.Project | frontend/src/App.tsx:286-419 | the values are computed from the response or, when there is none, the placeholder: the date is the text before the first space, the threshold is `'0.50'`, the cells are the current features'; the signal card and the date/threshold cards are rendered iff there is a response, the card being that response's |
| Display.PlaceholderRendersOnlyCells | frontend/src/App.tsx:363-419 | with no response: the five zero feature cells are rendered and no signal card, date card or threshold card |
| Display.PlaceholderDashboard | frontend/src/App.tsx:286-300 | with no response the computed date is `'---'`, with no time, and the threshold text is `'0.50'` |
| App.SignInAttempts | frontend/src/App.tsx:226-237 | `initAuth` tries the custom token first iff it is defined and non-empty, else anonymous; it retries anonymously exactly when the first call fails |
| App.SignInPolicy | frontend/src/App.tsx:228-235 | some custom-token sign-in happens iff a non-empty token is defined; anonymous sign-in happens iff there is no such token or the first call fails |
| App.Mount | frontend/src/App.tsx:206-253 | a config that does not parse makes the app ready with no listener and no sign-in; a parsed one registers the listener, does not touch readiness, and makes exactly the sign-in attempts `initAuth` makes (`SignInAttempts`); `userId` is untouched |
| App.OnAuthStateChanged | frontend/src/App.tsx:240-248 | every notification sets a user id (the user's uid, else the fresh random id) and sets ready, changing nothing else |
| App.OnTickerChange | frontend/src/App.tsx:341-347 | after an edit the ticker is the typed text cut to its first five characters and upper-cased character by character (so upper-case, of length min(typed, 5)); nothing else changes |
| App.SubmitEnabled | frontend/src/App.tsx:350 | the button is enabled exactly when nothing is loading, sign-in is ready and the ticker is non-empty; an enabled click always sends one request, for the current ticker |
| App.FetchPrediction | frontend/src/App.tsx:259-271 | not ready: the not-ready error and no request, loading and response unchanged; ready: loading, error and response cleared, one request for the current ticker |
| App.ShownError | frontend/src/App.tsx:279 | the error shown is the thrown message when it is non-empty, and exactly the fallback literal when it is empty; never empty |
| App.Settle | frontend/src/App.tsx:269-282 | settling ends loading; success stores the body as-is; failure stores a non-empty message: the derived message for a non-2xx response, the fallback literal when a truthy `detail` renders empty, the thrown `TypeError`'s message for a `null` error body, and the fallback for any empty message |
| App.SubmitThenSettle | frontend/src/App.tsx:259-283 | a ready submission then its outcome leaves loading off and exactly one of response and error set |
| App.Step | frontend/src/App.tsx:341-350 | readiness never reverts; an edit while loading and a click on a disabled button change nothing; a request is sent iff an enabled button is clicked |
| App.StartInvariant | frontend/src/App.tsx:194-201 | the first render satisfies the invariant: nothing in flight, not loading, ticker `AAPL` |
| App.StepInvariant | frontend/src/App.tsx:343-350 | every event keeps: at most one fetch in flight and exactly while loading; ticker upper-case and at most five characters; ready only after mounting; every request well formed |
| App.RunInvariant | frontend/src/App.tsx:206-283 | every event sequence from an invariant world keeps the invariant |
| App.ReadyNeverReverts | frontend/src/App.tsx:195-248 | once `isAuthReady` holds it holds after any further events |
| App.SingleInFlight | frontend/src/App.tsx:345-350 | from the first render no event sequence has two fetches in flight, and every request sent carries a non-empty upper-case ticker of at most five characters |
| App.NotReadyClickIsInert | frontend/src/App.tsx:348-350 | a click while not ready does nothing, so the not-ready branch of `fetchPrediction` cannot be reached from the page |
| App.InvalidConfigReadyWithoutUser | frontend/src/App.tsx:209-216 | a config that does not parse leaves the app ready with a null user id, no listener and no sign-in call |
| App.NoListenerNoUser | frontend/src/App.tsx:210-216 | after mounting without a listener the user id stays null whatever happens |
| App.SettledBodyNotMatchedToRequest | frontend/src/App.tsx:269-274 | the page can request AAPL and display a body for MSFT: the outcome is not checked against the submission |
| RateLimit.AfterKeepsLater | backend/app/main.py:41-42 | pruning keeps exactly the timestamps strictly after `now - window` and drops every other |
| RateLimit.Handle | backend/app/main.py:36-49 | the client's list becomes its timestamps after `now - window`; the request is rejected with 429 "Rate limit exceeded." iff that list holds at least the maximum, and then nothing is recorded; otherwise exactly `now` is appended; other clients' entries are untouched |
| RateLimit.UnknownBucketIsShared | backend/app/main.py:38 | a request without client info is handled exactly as one from host "unknown": one shared bucket |
| RateLimit.HandleKeepsBound | backend/app/main.py:44-47 | if every list is within the maximum, it stays so after a request, since the check precedes the append |
| RateLimit.ProcessKeepsBound | backend/app/main.py:34-47 | from the empty store, every stored list has at most `MAX_REQUESTS_PER_MINUTE` entries |
| RateLimit.StoreTracksAccepted | backend/app/main.py:41-47 | with a clock that never goes back, a client's stored list, seen from any later reading, is exactly its forwarded timestamps still in the window |
| RateLimit.AtMostMaxPerWindow | backend/app/main.py:41-47 | with a clock that never goes back, no client has more than 5 forwarded requests in any 60-second window `(t - 60 s, t]` |
| PredictLive.Assemble | backend/app/api/endpoints.py:27-31 | the feature row lists `features[f]` in exactly the metadata order, and fails iff some name is missing, naming the first missing one |
| PredictLive.Signal | backend/app/api/endpoints.py:36-37 | the signal is 0 or 1, and 1 iff `proba >= threshold` |
| PredictLive.SignalMonotone | backend/app/api/endpoints.py:37 | a higher probability never gives a lower signal |
| PredictLive.Handle | backend/app/api/endpoints.py:9-44 | unsupported ticker: 400 listing the supported tickers, with no call made; a success echoes the upper-cased ticker, carries `str(last_train_date)` and a 0/1 signal that is 1 iff `proba >= threshold` |
| PredictLive.EmptyMetadataRejectsAll | backend/app/api/endpoints.py:14-16 | with the empty metadata the process starts with, every ticker gets 400 and nothing is fetched |
| PredictLive.RejectionIgnoresServices | backend/app/api/endpoints.py:14-20 | an unsupported ticker's response does not depend on any collaborator: validation precedes every fetch |
| PredictLive.HandleIgnoresCase | backend/app/api/endpoints.py:11 | the endpoint answers `aapl` and `AAPL` identically |
| PredictLive.FeatureRowInMetadataOrder | backend/app/api/endpoints.py:27-44 | the classifier sees the computed features in metadata order and the output carries them all; a missing name yields 500 "Feature mismatch" with the first missing name |
| EndToEnd.ShownSignalFollowsThreshold | backend/app/api/endpoints.py:36-44 | for the request the page sends, a successful answer echoes the sent ticker, the signal card is rendered and reads buy iff the probability reached the threshold, and the threshold card is rendered with the literal |
| EndToEnd.EndpointDetailShownVerbatim | frontend/src/api.ts:45-49 | an endpoint error with a non-empty string `detail` becomes the thrown message and, after a ready submission, the page's `error` as exactly that text |

## Left out

- Text.Upper: ASCII-only. JavaScript `toUpperCase` and Python `str.upper` map all of Unicode, and some letters (such as `ß`) grow, which could let a five-character input become six.
- Text.PyReprList: a string with a quote or a backslash is not escaped the way Python's `repr` would.
- ApiClient.ErrorMessage: a `detail` that is not a string (for example FastAPI's validation-error list) is represented only by its JavaScript truthiness and its `String(...)` rendering (`NonString`). Both are taken as given rather than computed from a JSON value. The message is not promised to be non-empty: a truthy `detail` that renders empty, such as `[]`, throws an error with an empty message, and the page then shows the fallback literal (`App.Settle`). A non-2xx body that parses to JSON `null` is the separate outcome `HttpErrNullBody`: `errorData.detail` then throws a `TypeError`. The wording of that error comes from the JavaScript engine, so the model takes it as a parameter.
- Display: `toFixed` formatting, the layout, the icons, and the "composite score" cell (a floating-point formula) are presentation only.
- Display: `userId.substring(0, 8)` in the header is presentation only.
- The `PriceCard` and `SignalCard` components and the Tailwind config are presentation only.
- The Firebase SDK itself is not modelled: `initializeApp`, `getFirestore`, `getAuth`, the order in which notifications and sign-in results arrive, and the listener's teardown. Only their effects on `isAuthReady` and `userId` are modelled. The anonymous retry's own failure is an unhandled rejection with no effect on state, so it is not modelled.
- App: React rendering, closures over stale state, and batching are not modelled; each event sees the current state.
- App: a 2xx body missing top-level fields or of the wrong types is not modelled. Feature keys can be missing, and `signal` can be any integer.
- App.SettledBodyNotMatchedToRequest: this states a gap of the program rather than a guarantee. No sequence numbers or stale-response discarding are modelled, because the code has none.
- RateLimit.AtMostMaxPerWindow: needs clock readings that never decrease. `datetime.now()` is local wall-clock time and can step back (daylight saving, clock correction); the bound is not claimed then.
- RateLimit.Handle: the decision is the exception the middleware raises. How Starlette turns an `HTTPException` raised inside an HTTP middleware into a response is not modelled. Such exceptions are generally not routed to FastAPI's handler, so a client may see a 500 instead of 429.
- RateLimit: CORS, FastAPI routing and async scheduling are not modelled. The critical section has no `await`, so requests are handled one at a time.
- PredictLive: the Polygon HTTP calls, the date arithmetic, FinBERT, pandas indicators, the scaler and XGBoost are not modelled. They are abstract functions. So are errors raised inside them other than the price fetcher's 503/404 (for example an `IndexError` from too little price history).
- PredictLive: model loading (`backend/app/model/manager.py`) is not modelled. Only its two possible metadata states are: empty, or all four keys.

=== FILE: api_client.dfy ===
/**
  `fetchLiveSignal`, the dashboard's one call to the prediction service. It is
  written twice in the frontend with identical bodies (once in `api.ts`, once at
  the top of `App.tsx`); this module models both. The call is split into its
  two halves: the request it sends, and how it turns the response into either
  the parsed body or the message of the error it throws.
 */
module ApiClient {
  import opened Common
  import opened Text
  import opened Wire

  /** The single fixed URL every request goes to. */
  const LiveEndpointUrl: string := "http://localhost:8000/predict/live"

  /** What `fetch` is asked to send: method, URL, content type and the body's `ticker`. */
  datatype Request = Request(verb: string, url: string, contentType: string, ticker: string)

  /**
    A JSON value found under `detail`. A string is kept as it is. Any other value
    (an array, an object, a number, a boolean, `null`) is known by the two things
    the code uses: whether JavaScript finds it truthy, and its `String(...)`
    rendering, which `new Error(...)` turns into the message.
   */
  datatype Detail = Str(s: string) | NonString(truthy: bool, rendered: string)

  /** JavaScript truthiness of a `detail` value: a string is truthy when non-empty. */
  predicate Truthy(d: Detail) {
    match d
    case Str(s) => s != ""
    case NonString(truthy, _) => truthy
  }

  /** The message of `new Error(d)`: the value converted to a string. */
  function Rendered(d: Detail): string {
    match d
    case Str(s) => s
    case NonString(_, rendered) => rendered
  }

  /** The body of a non-2xx response once `res.json()` has parsed it: `{detail?: ...}`. */
  datatype ErrorBody = ErrorBody(detail: Option<Detail>)

  /** A parsed error body whose `detail` wins over the status message in `detail || template`. */
  predicate HasTruthyDetail(parsed: Option<ErrorBody>) {
    parsed.Some? && parsed.value.detail.Some? && Truthy(parsed.value.detail.value)
  }

  /** A truthy `detail` whose rendering is empty (such as `[]`), so the thrown message is empty. */
  predicate RendersEmpty(parsed: Option<ErrorBody>) {
    HasTruthyDetail(parsed) && Rendered(parsed.value.detail.value) == ""
  }

  /**
    How a request ends, as seen by `fetchLiveSignal`:
    - `Ok`: `res.ok` holds and `res.json()` yields the body;
    - `HttpErr`: a non-2xx status, with the error body if it parsed as JSON (a
      parsed value other than an object or `null` has no `detail`, so it is
      `Some(ErrorBody(None))`);
    - `HttpErrNullBody`: a non-2xx status whose body parsed as JSON `null`, so
      reading `errorData.detail` throws a `TypeError`; its message is worded by
      the JavaScript engine and is therefore a parameter here;
    - `NetworkErr`: `fetch` or the success-path `res.json()` rejected with an error carrying `message`.
   */
  datatype HttpOutcome =
    | Ok(body: Prediction)
    | HttpErr(status: nat, parsed: Option<ErrorBody>)
    | HttpErrNullBody(status: nat, typeErrorMessage: string)
    | NetworkErr(message: string)

  /** The detail substituted when a failed response's body does not parse ("unknown API error"). */
  const UnknownApiError: string := "خطای نامشخص API"

  /** The text before the status code in the synthesised message ("API call failed. (status code: "). */
  const StatusMessagePrefix: string := "فراخوانی API با خطا مواجه شد. (کد وضعیت: "

  /** The message synthesised from the status code when no usable `detail` is present. */
  function StatusMessage(status: nat): (msg: string)
    ensures |msg| == |StatusMessagePrefix| + |Decimal(status)| + 1
    ensures msg[..|StatusMessagePrefix|] == StatusMessagePrefix
    ensures msg[|StatusMessagePrefix|..|msg| - 1] == Decimal(status)
    ensures msg[|msg| - 1] == ')'
  {
    StatusMessagePrefix + Decimal(status) + ")"
  }

  /** The request `fetchLiveSignal(ticker)` sends. */
  function BuildRequest(ticker: string): (r: Request)
    ensures r.verb == "POST" && r.url == LiveEndpointUrl && r.contentType == "application/json"
    ensures |r.ticker| == |ticker| && IsUpperCase(r.ticker)
    ensures forall i :: 0 <= i < |ticker| ==> r.ticker[i] == UpperChar(ticker[i])
  {
    Request("POST", LiveEndpointUrl, "application/json", Upper(ticker))
  }

  /**
    The message of the error thrown for a non-2xx response. A body that fails
    to parse is replaced by `{detail: UnknownApiError}`; then a truthy
    `detail` wins over the status message, and `new Error` renders it.
   */
  function ErrorMessage(status: nat, parsed: Option<ErrorBody>): (msg: string)
    ensures msg == "" <==> RendersEmpty(parsed)
    ensures parsed.None? ==> msg == UnknownApiError
    ensures HasTruthyDetail(parsed) ==> msg == Rendered(parsed.value.detail.value)
    ensures (parsed.Some? && parsed.value.detail.Some? && parsed.value.detail.value.Str?
             && parsed.value.detail.value.s != "") ==> msg == parsed.value.detail.value.s
    ensures parsed.Some? && !HasTruthyDetail(parsed) ==> msg == StatusMessage(status)
  {
    var detail := match parsed
      case None => Some(Str(UnknownApiError))
      case Some(body) => body.detail;
    if detail.Some? && Truthy(detail.value) then Rendered(detail.value) else StatusMessage(status)
  }

  /**
    What the awaited call produces: the parsed body, returned as-is, or the
    message of the thrown error.
   */
  function ReadResponse(outcome: HttpOutcome): (r: Result<Prediction, string>)
    ensures r.Success? <==> outcome.Ok?
    ensures outcome.Ok? ==> r.value == outcome.body
    ensures outcome.HttpErr? ==> r.error == ErrorMessage(outcome.status, outcome.parsed)
    ensures outcome.HttpErr? ==> (r.error == "" <==> RendersEmpty(outcome.parsed))
    ensures outcome.HttpErr? && outcome.parsed.None? ==> r.error == UnknownApiError
    ensures outcome.HttpErrNullBody? ==> r.error == outcome.typeErrorMessage
    ensures outcome.NetworkErr? ==> r.error == outcome.message
  {
    match outcome
    case Ok(body) => Success(body)
    case HttpErr(status, parsed) => Failure(ErrorMessage(status, parsed))
    case HttpErrNullBody(_, typeErrorMessage) => Failure(typeErrorMessage)
    case NetworkErr(message) => Failure(message)
  }

  /**
    A failed response whose body is JSON `null` never reports its status code
    and never shows a `detail`: the message is the thrown `TypeError`'s alone.
   */
  lemma NullErrorBodyIgnoresStatus(a: nat, b: nat, typeErrorMessage: string)
    ensures ReadResponse(HttpErrNullBody(a, typeErrorMessage)) == ReadResponse(HttpErrNullBody(b, typeErrorMessage))
    ensures ReadResponse(HttpErrNullBody(a, typeErrorMessage)) == Failure(typeErrorMessage)
  {
  }

  /** The request depends on the ticker only up to case. */
  lemma RequestIgnoresCase(ticker: string)
    ensures BuildRequest(Upper(ticker)) == BuildRequest(ticker)
  {
    UpperIdempotent(ticker);
  }

  /** The synthesised message determines the status code it was built from. */
  lemma StatusMessageInjective(a: nat, b: nat)
    requires StatusMessage(a) == StatusMessage(b)
    ensures a == b
  {
    var ma, mb := StatusMessage(a), StatusMessage(b);
    assert Decimal(a) == ma[|StatusMessagePrefix|..|ma| - 1];
    DecimalInjective(a, b);
  }

  /**
    A failed response whose body does not parse never reports its status code:
    the substituted `detail` is truthy, so the status message is unreachable.
   */
  lemma UnparsedErrorHidesStatus(status: nat)
    ensures forall s: nat :: ErrorMessage(status, None) != StatusMessage(s)
  {
    forall s: nat
      ensures ErrorMessage(status, None) != StatusMessage(s)
    {
      assert |StatusMessage(s)| > |UnknownApiError|;
    }
  }

  /** Two non-2xx responses without a truthy `detail` produce the same message iff their status codes agree. */
  lemma MissingDetailMessagesDistinguishStatus(a: nat, b: nat, da: Option<Detail>, db: Option<Detail>)
    requires da.None? || !Truthy(da.value)
    requires db.None? || !Truthy(db.value)
    ensures ErrorMessage(a, Some(ErrorBody(da))) == ErrorMessage(b, Some(ErrorBody(db))) <==> a == b
  {
    if ErrorMessage(a, Some(ErrorBody(da))) == ErrorMessage(b, Some(ErrorBody(db))) {
      StatusMessageInjective(a, b);
    }
  }
}

=== FILE: app.dfy ===
/**
  The dashboard component's state machine (`App` in `App.tsx`): the one-time
  authentication bootstrap that publishes the readiness flag and user id, the
  ticker input, the submit button and its disabled predicate, and
  `fetchPrediction`, which starts a request and later applies its outcome.

  React state is one immutable `UiState`; each handler is a pure transition.
  The identity provider, `crypto.randomUUID` and `fetch` are not modelled:
  they appear as event parameters (whether config parsing succeeds, the user a
  notification carries, the random id, the HTTP outcome).
 */
module App {
  import opened Common
  import opened Text
  import opened Wire
  import opened ApiClient
  import Display

  /** The error shown when submitting before authentication is ready. */
  const NotReadyMessage: string := "Firebase authentication is not yet ready. Please wait."

  /** The error shown when the thrown error has an empty message ("unknown API error; make sure the FastAPI backend is running"). */
  const FallbackErrorMessage: string :=
    "خطای ناشناخته در فراخوانی API. مطمئن شوید بک\U{200C}اند (FastAPI) در حال اجرا است."

  /** The input's `maxLength`. */
  const TickerMaxLength: nat := 5

  /** The component's state hooks that carry behaviour (`db` and `auth` handles are folded into `listening`). */
  datatype UiState = UiState(
    userId: Option<string>,
    authReady: bool,
    listening: bool,
    ticker: string,
    loading: bool,
    error: Option<string>,
    response: Option<Prediction>)

  /** The state of the first render. */
  const Initial: UiState := UiState(None, false, false, "AAPL", false, None, None)

  // ---------------------------------------------------------------------------
  // Session bootstrap
  // ---------------------------------------------------------------------------

  /** One sign-in call made by `initAuth`. */
  datatype SignIn = WithCustomToken(token: string) | Anonymously

  /** The injected token counts only when it is defined and non-empty. */
  predicate HasToken(token: Option<string>) {
    token.Some? && token.value != ""
  }

  /**
    The sign-in calls `initAuth` makes: the custom token when there is one,
    else anonymous; after a failure of that first call, one anonymous retry.
   */
  function SignInAttempts(token: Option<string>, firstSucceeds: bool): (attempts: seq<SignIn>)
    ensures 1 <= |attempts| <= 2
    ensures attempts[0].WithCustomToken? <==> HasToken(token)
    ensures attempts[0].WithCustomToken? ==> attempts[0].token == token.value
    ensures |attempts| == 2 <==> !firstSucceeds
    ensures forall i :: 1 <= i < |attempts| ==> attempts[i] == Anonymously
  {
    var first := if HasToken(token) then WithCustomToken(token.value) else Anonymously;
    if firstSucceeds then [first] else [first, Anonymously]
  }

  /** The custom token is tried iff it is defined and non-empty; anonymous sign-in is tried otherwise or after its failure. */
  lemma SignInPolicy(token: Option<string>, firstSucceeds: bool)
    ensures (exists t :: WithCustomToken(t) in SignInAttempts(token, firstSucceeds)) <==> HasToken(token)
    ensures Anonymously in SignInAttempts(token, firstSucceeds) <==> !HasToken(token) || !firstSucceeds
  {
    var attempts := SignInAttempts(token, firstSucceeds);
    if HasToken(token) {
      assert WithCustomToken(token.value) == attempts[0];
    }
  }

  /** What the mount effect leaves behind: the new state and the sign-in calls it starts. */
  datatype Mounted = Mounted(state: UiState, signIns: seq<SignIn>)

  /**
    The mount effect. If the config does not parse, the app becomes ready at
    once, with no listener and no sign-in. Otherwise it registers the auth
    listener and starts `initAuth`; readiness waits for a notification.
   */
  function Mount(s: UiState, configParses: bool, token: Option<string>, firstSignInSucceeds: bool): (m: Mounted)
    ensures !configParses ==> m.state.authReady && m.signIns == [] && m.state.listening == s.listening
    ensures configParses ==> m.state.listening && m.state.authReady == s.authReady && |m.signIns| >= 1
    ensures configParses ==> m.signIns == SignInAttempts(token, firstSignInSucceeds)
    ensures m.state.userId == s.userId
    ensures m.state.(authReady := s.authReady, listening := s.listening) == s
  {
    if !configParses then Mounted(s.(authReady := true), [])
    else Mounted(s.(listening := true), SignInAttempts(token, firstSignInSucceeds))
  }

  /** The `onAuthStateChanged` callback: the user's uid, or a fresh random id, and ready. */
  function OnAuthStateChanged(s: UiState, user: Option<string>, freshId: string): (r: UiState)
    ensures r.authReady && r.userId.Some?
    ensures user.Some? ==> r.userId == user
    ensures user.None? ==> r.userId == Some(freshId)
    ensures r.(userId := s.userId, authReady := s.authReady) == s
  {
    s.(userId := Some(user.GetOr(freshId)), authReady := true)
  }

  // ---------------------------------------------------------------------------
  // Ticker input and submit
  // ---------------------------------------------------------------------------

  /** The input's `onChange`: at most `maxLength` characters reach it, and they are upper-cased. */
  function OnTickerChange(s: UiState, text: string): (r: UiState)
    ensures |r.ticker| <= TickerMaxLength && IsUpperCase(r.ticker)
    ensures |r.ticker| == if |text| <= TickerMaxLength then |text| else TickerMaxLength
    ensures forall i :: 0 <= i < |r.ticker| ==> r.ticker[i] == UpperChar(text[i])
    ensures r.(ticker := s.ticker) == s
  {
    s.(ticker := Upper(Take(text, TickerMaxLength)))
  }

  /**
    The button's `disabled` flag negated: enabled only when not loading, ready,
    and the ticker is non-empty. An enabled click always sends one request, for
    the current ticker.
   */
  predicate SubmitEnabled(s: UiState): (enabled: bool)
    ensures enabled ==> !s.loading && s.authReady && s.ticker != ""
    ensures !s.loading && s.authReady && s.ticker != "" ==> enabled
    ensures enabled ==> FetchPrediction(s).request == Some(BuildRequest(s.ticker))
  {
    !s.loading && s.authReady && s.ticker != ""
  }

  /** What `fetchPrediction` does before it awaits: the new state and the request sent, if any. */
  datatype Submitted = Submitted(state: UiState, request: Option<Request>)

  /**
    `fetchPrediction` up to its `await`. Not ready: show the not-ready error
    and send nothing. Ready: loading, no error, no response, and one request
    for the current ticker.
   */
  function FetchPrediction(s: UiState): (r: Submitted)
    ensures !s.authReady ==> r.request.None? && r.state == s.(error := Some(NotReadyMessage))
    ensures s.authReady ==> r.request == Some(BuildRequest(s.ticker))
    ensures s.authReady ==> r.state.loading && r.state.error.None? && r.state.response.None?
    ensures r.state.(loading := s.loading, error := s.error, response := s.response) == s
  {
    if !s.authReady then Submitted(s.(error := Some(NotReadyMessage)), None)
    else Submitted(s.(loading := true, error := None, response := None), Some(BuildRequest(s.ticker)))
  }

  /** The message `setError` receives: the thrown message, or the fallback when that is empty. */
  function ShownError(message: string): (m: string)
    ensures m != ""
    ensures message != "" ==> m == message
    ensures message == "" ==> m == FallbackErrorMessage
  {
    if message != "" then message else FallbackErrorMessage
  }

  /**
    `fetchPrediction` after its `await` settles: success stores the body as-is,
    failure stores the error message; either way loading ends. Nothing here
    checks which submission the outcome belongs to.
   */
  function Settle(s: UiState, outcome: HttpOutcome): (r: UiState)
    ensures !r.loading
    ensures outcome.Ok? ==> r.response == Some(outcome.body) && r.error == s.error
    ensures !outcome.Ok? ==> r.response == s.response && r.error.Some? && r.error.value != ""
    ensures outcome.HttpErr? ==> r.error == Some(ShownError(ErrorMessage(outcome.status, outcome.parsed)))
    ensures outcome.HttpErr? && !RendersEmpty(outcome.parsed) ==> r.error == Some(ErrorMessage(outcome.status, outcome.parsed))
    ensures outcome.HttpErr? && RendersEmpty(outcome.parsed) ==> r.error == Some(FallbackErrorMessage)
    ensures outcome.HttpErrNullBody? ==> r.error == Some(ShownError(outcome.typeErrorMessage))
    ensures outcome.NetworkErr? && outcome.message != "" ==> r.error == Some(outcome.message)
    ensures outcome == NetworkErr("") ==> r.error == Some(FallbackErrorMessage)
    ensures r.(loading := s.loading, error := s.error, response := s.response) == s
  {
    match ReadResponse(outcome)
    case Success(data) => s.(response := Some(data), loading := false)
    case Failure(message) => s.(error := Some(ShownError(message)), loading := false)
  }

  /**
    A ready submission followed by its outcome leaves loading off and exactly
    one of response and error set: the body on success, the message on failure.
   */
  lemma SubmitThenSettle(s: UiState, outcome: HttpOutcome)
    requires s.authReady
    ensures var r := Settle(FetchPrediction(s).state, outcome);
      && !r.loading
      && (r.response.Some? <==> r.error.None?)
      && (outcome.Ok? ==> r.response == Some(outcome.body))
      && (outcome.HttpErr? ==> r.error == Some(ShownError(ErrorMessage(outcome.status, outcome.parsed))))
      && (outcome.HttpErrNullBody? ==> r.error == Some(ShownError(outcome.typeErrorMessage)))
      && (outcome.NetworkErr? ==> r.error == Some(ShownError(outcome.message)))
  {
  }

  // ---------------------------------------------------------------------------
  // The component and its environment
  // ---------------------------------------------------------------------------

  /** Everything that can happen to the mounted component. */
  datatype Event =
    | MountEffect(configParses: bool, token: Option<string>, firstSignInSucceeds: bool)
    | AuthNotification(user: Option<string>, freshId: string)
    | TickerInput(text: string)
    | ButtonClick
    | FetchSettled(outcome: HttpOutcome)

  /**
    The component together with what it has done to the outside world: whether
    the mount effect ran, how many fetches are awaiting an outcome, the requests
    sent and the sign-in calls started.
   */
  datatype World = World(ui: UiState, mounted: bool, inFlight: nat, sent: seq<Request>, signIns: seq<SignIn>)

  const Start: World := World(Initial, false, 0, [], [])

  /**
    One event. The mount effect runs once (empty dependency list); a
    notification needs a registered listener; the input and the button ignore
    events while disabled; an outcome arrives only for a fetch in flight.
   */
  function Step(w: World, e: Event): (w': World)
    ensures w.ui.authReady ==> w'.ui.authReady
    ensures e.ButtonClick? && !SubmitEnabled(w.ui) ==> w' == w
    ensures e.TickerInput? && w.ui.loading ==> w' == w
    ensures |w.sent| <= |w'.sent| <= |w.sent| + 1 && w'.sent[..|w.sent|] == w.sent
    ensures |w'.sent| == |w.sent| + 1 <==> e.ButtonClick? && SubmitEnabled(w.ui)
  {
    match e
    case MountEffect(configParses, token, firstOk) =>
      if w.mounted then w
      else
        var m := Mount(w.ui, configParses, token, firstOk);
        w.(ui := m.state, mounted := true, signIns := m.signIns)
    case AuthNotification(user, freshId) =>
      if w.ui.listening then w.(ui := OnAuthStateChanged(w.ui, user, freshId)) else w
    case TickerInput(text) =>
      if w.ui.loading then w else w.(ui := OnTickerChange(w.ui, text))
    case ButtonClick =>
      if !SubmitEnabled(w.ui) then w
      else
        var r := FetchPrediction(w.ui);
        w.(ui := r.state, inFlight := w.inFlight + 1, sent := w.sent + [r.request.value])
    case FetchSettled(outcome) =>
      if w.inFlight == 0 then w
      else w.(ui := Settle(w.ui, outcome), inFlight := w.inFlight - 1)
  }

  /** The events in order. */
  function Run(w: World, events: seq<Event>): World
    decreases |events|
  {
    if |events| == 0 then w else Run(Step(w, events[0]), events[1..])
  }

  /** A request the button can send: a POST of a non-empty, upper-case ticker of at most five characters. */
  predicate WellFormedRequest(r: Request) {
    && r.verb == "POST"
    && r.url == LiveEndpointUrl
    && 0 < |r.ticker| <= TickerMaxLength
    && IsUpperCase(r.ticker)
  }

  /**
    What holds in every reachable world: at most one fetch in flight, exactly
    while loading; the ticker is upper-case and short; readiness and a user id
    only after mounting; every request sent well formed.
   */
  predicate Invariant(w: World) {
    && w.inFlight <= 1
    && (w.ui.loading <==> w.inFlight == 1)
    && |w.ui.ticker| <= TickerMaxLength
    && IsUpperCase(w.ui.ticker)
    && (w.ui.listening ==> w.mounted)
    && (w.ui.authReady ==> w.mounted)
    && (w.ui.userId.Some? ==> w.ui.authReady)
    && (forall i :: 0 <= i < |w.sent| ==> WellFormedRequest(w.sent[i]))
  }

  lemma StartInvariant()
    ensures Invariant(Start)
  {
    assert IsUpperCase("AAPL");
  }

  lemma StepInvariant(w: World, e: Event)
    requires Invariant(w)
    ensures Invariant(Step(w, e))
  {
    if e.ButtonClick? && SubmitEnabled(w.ui) {
      var w' := Step(w, e);
      assert w'.sent[|w.sent|] == BuildRequest(w.ui.ticker);
      UpperOfUpperCase(w.ui.ticker);
    }
  }

  /** Every run from the first render keeps the invariant. */
  lemma {:induction false} RunInvariant(w: World, events: seq<Event>)
    requires Invariant(w)
    ensures Invariant(Run(w, events))
    decreases |events|
  {
    if |events| > 0 {
      StepInvariant(w, events[0]);
      RunInvariant(Step(w, events[0]), events[1..]);
    }
  }

  /** Once ready, always ready: nothing ever clears the flag. */
  lemma {:induction false} ReadyNeverReverts(w: World, events: seq<Event>)
    requires w.ui.authReady
    ensures Run(w, events).ui.authReady
    decreases |events|
  {
    if |events| > 0 {
      ReadyNeverReverts(Step(w, events[0]), events[1..]);
    }
  }

  /**
    From the first render no event sequence ever has two fetches in flight,
    and every request carries a non-empty upper-case ticker of at most five
    characters.
   */
  lemma SingleInFlight(events: seq<Event>)
    ensures Run(Start, events).inFlight <= 1
    ensures Run(Start, events).ui.loading <==> Run(Start, events).inFlight == 1
    ensures forall i :: 0 <= i < |Run(Start, events).sent| ==> WellFormedRequest(Run(Start, events).sent[i])
  {
    StartInvariant();
    RunInvariant(Start, events);
  }

  /**
    The button is disabled while not ready, so a click then does nothing: the
    not-ready branch of `fetchPrediction` cannot be reached from the page.
   */
  lemma NotReadyClickIsInert(w: World)
    requires !w.ui.authReady
    ensures Step(w, ButtonClick) == w
  {
  }

  /** A config that does not parse leaves the app ready with no user id, no listener and no sign-in. */
  lemma InvalidConfigReadyWithoutUser()
    ensures var w := Step(Start, MountEffect(false, None, false));
      && w.ui.authReady && w.ui.userId.None? && !w.ui.listening && w.signIns == []
  {
  }

  /** Without a listener, notifications are never delivered, so the user id stays unset forever. */
  lemma {:induction false} NoListenerNoUser(w: World, events: seq<Event>)
    requires w.mounted && !w.ui.listening && w.ui.userId.None?
    ensures Run(w, events).ui.userId.None?
    decreases |events|
  {
    if |events| > 0 {
      NoListenerNoUser(Step(w, events[0]), events[1..]);
    }
  }

  /**
    An observed gap: the outcome is applied without comparing it to the
    submission. Here the page asks for AAPL and displays a body for MSFT.
   */
  lemma SettledBodyNotMatchedToRequest()
    ensures var body := Prediction("MSFT", 0.9, 1, map[], "2025-05-30 00:00:00");
      var w := Run(Start, [MountEffect(false, None, false), ButtonClick, FetchSettled(Ok(body))]);
      && w.sent == [BuildRequest("AAPL")]
      && w.ui.response == Some(body)
      && w.ui.response.value.ticker != w.sent[0].ticker
  {
    var body := Prediction("MSFT", 0.9, 1, map[], "2025-05-30 00:00:00");
    var events := [MountEffect(false, None, false), ButtonClick, FetchSettled(Ok(body))];
    var w1 := Step(Start, events[0]);
    assert w1.ui.authReady && !w1.ui.loading && w1.ui.ticker == "AAPL";
    var w2 := Step(w1, events[1]);
    assert w2.sent == [BuildRequest("AAPL")] && w2.inFlight == 1;
    var w3 := Step(w2, events[2]);
    assert w3.ui.response == Some(body) && w3.sent == w2.sent;
    assert Run(Start, events) == Run(w1, events[1..]);
    assert Run(w1, events[1..]) == Run(w2, events[2..]);
    assert Run(w2, events[2..]) == Run(w3, []);
    assert Upper("AAPL") == "AAPL" by {
      assert IsUpperCase("AAPL");
      UpperOfUpperCase("AAPL");
    }
  }
}

=== FILE: common.dfy ===
/** Option and Result, the two failure-carrying shapes the rest of the model uses. */
module Common {

  /** A value that may be absent: JavaScript's `null`/`undefined`, Python's `None`. */
  datatype Option<+T> = None | Some(value: T) {

    /** The carried value, or `default` when absent (JavaScript's `x || default` on non-falsy values). */
    function GetOr(default: T): T
    {
      match this
      case Some(v) => v
      case None => default
    }
  }

  /** A computation that either returns a value or raises an error. */
  datatype Result<+R, +E> = Success(value: R) | Failure(error: E)
}

=== FILE: display.dfy ===
/**
  The dashboard's display derivations: the placeholder shown before any
  response, the date and time cut out of `model_timestamp`, the fixed trade
  threshold text, the buy / sell-neutral card, and the feature cells that read
  'N/A' for a missing value. Number formatting (`toFixed`) and layout are not
  modelled: a cell carries the number, not its text.
 */
module Display {
  import opened Common
  import opened Text
  import opened Wire

  /** `defaultFeatures`: every shown feature at zero. */
  const PlaceholderFeatures: map<string, real> :=
    map["sma_10" := 0.0, "rsi" := 0.0, "vol_20" := 0.0, "sentiment" := 0.0, "sentiment_ma" := 0.0]

  /** The model shown while there is no response. */
  const Placeholder: Prediction := Prediction("---", 0.5, 0, PlaceholderFeatures, "--- | ---")

  /** The trade-threshold text, a literal that never looks at the model. */
  const TradeThreshold: string := "0.50"

  /** "Strong buy" and "sell / neutral". */
  const BuyLabel: string := "خرید قوی"
  const SellNeutralLabel: string := "فروش / خنثی"

  /** `response || placeholder`. */
  function Current(response: Option<Prediction>): Prediction
  {
    response.GetOr(Placeholder)
  }

  /** `model_timestamp.split(' | ')` and then the first piece split on `' '`. */
  function ModelDate(timestamp: string): string
  {
    var parts := Split(timestamp, " | ");
    if |parts| > 0 then Split(parts[0], " ")[0] else "N/A"
  }

  /**
    The second space-separated word of the first piece; `None` is JavaScript's
    `undefined`. The page computes this value but never renders it.
   */
  function ModelTime(timestamp: string): (t: Option<string>)
    ensures t.None? <==> !Contains(Before(timestamp, " | "), " ")
    ensures t.Some? ==> !Contains(t.value, " ")
  {
    var parts := Split(timestamp, " | ");
    if |parts| > 0 then
      var words := Split(parts[0], " ");
      SplitOnePiece(parts[0], " ");
      if |words| > 1 then Some(words[1]) else None
    else Some("N/A")
  }

  /**
    The model date is exactly the text of the timestamp before its first space
    (all of it when there is none). So the `'N/A'` fallback is never taken, and
    a timestamp without the `" | "` delimiter is still cut without failing.
   */
  lemma ModelDateIsTextBeforeFirstSpace(timestamp: string)
    ensures ModelDate(timestamp) == Before(timestamp, " ")
    ensures ModelDate(timestamp) <= timestamp
    ensures !Contains(ModelDate(timestamp), " ")
  {
    BeforeBarThenSpace(timestamp);
  }

  /** What the main signal card derives from a response. */
  datatype Tone = Emerald | Rose

  datatype SignalCard = SignalCard(isBuy: bool, caption: string, tone: Tone, percent: real)

  /** `MainSignalCard`: the buy label and emerald styling exactly when `signal === 1`. */
  function MainSignalCard(p: Prediction): (c: SignalCard)
    ensures c.isBuy <==> p.signal == 1
    ensures c.caption == BuyLabel <==> p.signal == 1
    ensures c.caption == SellNeutralLabel <==> p.signal != 1
    ensures c.tone == Emerald <==> p.signal == 1
    ensures c.percent / 100.0 == p.proba
  {
    var isBuy := p.signal == 1;
    SignalCard(isBuy,
               if isBuy then BuyLabel else SellNeutralLabel,
               if isBuy then Emerald else Rose,
               p.proba * 100.0)
  }

  /** The percentage is not clamped: an out-of-range probability shows out of range. */
  lemma PercentIsNotClamped()
    ensures MainSignalCard(Prediction("X", 1.5, 1, map[], "")).percent == 150.0
  {
  }

  /** A feature cell: the value, or 'N/A'. */
  datatype FeatureText = Value(v: real) | NotAvailable

  /** `FeatureDisplay`: 'N/A' exactly when the value is missing. */
  function FeatureCell(value: Option<real>): (t: FeatureText)
    ensures t.NotAvailable? <==> value.None?
    ensures value.Some? ==> t.v == value.value
  {
    match value
    case None => NotAvailable
    case Some(v) => Value(v)
  }

  function Lookup(features: map<string, real>, key: string): Option<real>
  {
    if key in features then Some(features[key]) else None
  }

  /** The five feature cells of the dashboard, in `FeatureKeys` order. */
  function FeatureCells(features: map<string, real>): (cells: seq<FeatureText>)
    ensures |cells| == |FeatureKeys|
    ensures forall i :: 0 <= i < |cells| ==> (cells[i].NotAvailable? <==> FeatureKeys[i] !in features)
    ensures forall i :: 0 <= i < |cells| && FeatureKeys[i] in features ==> cells[i].v == features[FeatureKeys[i]]
  {
    seq(|FeatureKeys|, i requires 0 <= i < |FeatureKeys| => FeatureCell(Lookup(features, FeatureKeys[i])))
  }

  /**
    Everything the dashboard derives from the current response. The date,
    time, threshold and feature cells are computed from the response or the
    placeholder; the feature cells are always rendered, while the signal card
    and the model-date and threshold cards are rendered only when there is a
    response (`card` and `statsShown`).
   */
  datatype Dashboard = Dashboard(
    shown: Prediction,
    modelDate: string,
    modelTime: Option<string>,
    threshold: string,
    cells: seq<FeatureText>,
    card: Option<SignalCard>,
    statsShown: bool)

  function Project(response: Option<Prediction>): (d: Dashboard)
    ensures response.Some? ==> d.shown == response.value
    ensures response.None? ==> d.shown == Placeholder
    ensures d.modelDate == Before(d.shown.modelTimestamp, " ")
    ensures d.threshold == TradeThreshold
    ensures d.cells == FeatureCells(d.shown.calculatedFeatures)
    ensures d.card.Some? <==> response.Some?
    ensures response.Some? ==> d.card.value == MainSignalCard(response.value)
    ensures d.statsShown <==> response.Some?
  {
    var shown := Current(response);
    ModelDateIsTextBeforeFirstSpace(shown.modelTimestamp);
    var card := match response
      case Some(r) => Some(MainSignalCard(r))
      case None => None;
    Dashboard(shown, ModelDate(shown.modelTimestamp), ModelTime(shown.modelTimestamp),
              TradeThreshold, FeatureCells(shown.calculatedFeatures), card, response.Some?)
  }

  /** The placeholder timestamp's first `" | "` starts at index 3. */
  lemma PlaceholderBarAtThree()
    ensures IndexOf("--- | ---", " | ") == Some(3)
  {
    var ts := "--- | ---";
    assert MatchAt(ts, " | ", 3) by {
      assert ts[3..6] == " | ";
    }
    assert !MatchAt(ts, " | ", 0) by { assert ts[0] == '-'; }
    assert !MatchAt(ts, " | ", 1) by { assert ts[1] == '-'; }
    assert !MatchAt(ts, " | ", 2) by { assert ts[2] == '-'; }
  }

  /** `"---"` holds no space. */
  lemma DashesHaveNoSpace()
    ensures IndexOf("---", " ") == None
  {
    forall j: nat | j <= 3
      ensures !MatchAt("---", " ", j)
    {
      if j < 3 {
        assert "---"[j..j + 1] == ['-'];
      }
    }
    assert !Contains("---", " ");
  }

  /** The placeholder timestamp's first `" | "`-piece is `"---"`, which holds no space. */
  lemma PlaceholderTimestampPieces()
    ensures Split(Placeholder.modelTimestamp, " | ")[0] == "---"
    ensures Split("---", " ") == ["---"]
  {
    var ts := "--- | ---";
    PlaceholderBarAtThree();
    DashesHaveNoSpace();
    assert Split(ts, " | ")[0] == Before(ts, " | ");
    assert ts[..3] == "---";
  }

  /** Every placeholder feature is present and zero, so no placeholder cell reads 'N/A'. */
  lemma PlaceholderCellsAreZero()
    ensures FeatureCells(PlaceholderFeatures) == [Value(0.0), Value(0.0), Value(0.0), Value(0.0), Value(0.0)]
  {
    var cells := FeatureCells(PlaceholderFeatures);
    forall i | 0 <= i < |FeatureKeys|
      ensures cells[i] == Value(0.0)
    {
      assert FeatureKeys[i] in PlaceholderFeatures;
    }
  }

  /**
    With no response the page renders only the five zero feature cells: no
    signal card, no model-date card and no threshold card.
   */
  lemma PlaceholderRendersOnlyCells()
    ensures Project(None).cells == [Value(0.0), Value(0.0), Value(0.0), Value(0.0), Value(0.0)]
    ensures Project(None).card == None && !Project(None).statsShown
  {
    PlaceholderCellsAreZero();
  }

  /** With no response the date computed is `'---'`, with no time, and the threshold text is `'0.50'`. */
  lemma PlaceholderDashboard()
    ensures Project(None).modelDate == "---"
    ensures Project(None).modelTime == None
    ensures Project(None).threshold == "0.50"
  {
    PlaceholderTimestampPieces();
  }
}

=== FILE: end_to_end.dfy ===
/**
  Properties that span the dashboard and the prediction endpoint: what the
  page shows for a body the endpoint produced from the request the page sent.
 */
module EndToEnd {
  import opened Common
  import opened Text
  import opened Wire
  import ApiClient
  import App
  import Display
  import PredictLive

  /**
    For the request the dashboard sends, a successful endpoint answer echoes
    the sent ticker, and the page shows the buy card exactly when the
    probability reached the model's threshold. The threshold card is rendered
    too, with the fixed literal, whatever the model's threshold is.
   */
  lemma ShownSignalFollowsThreshold<Prices>(ticker: string, md: PredictLive.Metadata, svc: PredictLive.Services<Prices>)
    requires PredictLive.Handle(ApiClient.BuildRequest(ticker).ticker, md, svc).result.Success?
    ensures var sent := ApiClient.BuildRequest(ticker).ticker;
      var body := PredictLive.Handle(sent, md, svc).result.value;
      && md.Loaded?
      && body.ticker == sent
      && Display.Project(Some(body)).card.Some?
      && (Display.Project(Some(body)).card.value.isBuy <==> body.proba >= md.threshold)
      && Display.Project(Some(body)).statsShown
      && Display.Project(Some(body)).threshold == Display.TradeThreshold
  {
    UpperIdempotent(ticker);
  }

  /**
    An endpoint error with a non-empty detail, answering a submission made while
    ready, is thrown with exactly that detail as its message and ends up as the
    page's error text, verbatim.
   */
  lemma EndpointDetailShownVerbatim(e: PredictLive.HttpError, s: App.UiState)
    requires e.detail != ""
    requires s.authReady
    ensures var outcome := ApiClient.HttpErr(e.status, Some(ApiClient.ErrorBody(Some(ApiClient.Str(e.detail)))));
      && ApiClient.ReadResponse(outcome) == Failure(e.detail)
      && App.Settle(App.FetchPrediction(s).state, outcome).error == Some(e.detail)
  {
  }
}

=== FILE: predict_live.dfy ===
/**
  The `POST /predict/live` handler (`predict_live`): upper-case the ticker,
  check it against the loaded model's ticker list, gather prices and news,
  compute the features, lay them out in the model's feature order, score them
  and apply the decision threshold.

  The market-data fetchers, the sentiment model, the feature computation and
  the scaler plus classifier are not modelled; they are the function-valued
  fields of `Services`, so every property below holds whatever they compute.
  The result records the external calls made, in order, beside the response.
 */
module PredictLive {
  import opened Common
  import opened Text
  import opened Wire

  /**
    `ai_manager.metadata`: an empty dictionary until the models load, then
    the four keys written by the loader. `lastTrainDate` is held as the text
    `str()` gives for it.
   */
  datatype Metadata =
    | EmptyMetadata
    | Loaded(tickers: seq<string>, features: seq<string>, threshold: real, lastTrainDate: string)

  /** The metadata before the models are loaded. */
  const InitialMetadata: Metadata := EmptyMetadata

  /** An `HTTPException`: status code and detail. */
  datatype HttpError = HttpError(status: nat, detail: string)

  const UnsupportedTickerPrefix: string := "Ticker not supported. Available: "
  const FeatureMismatchPrefix: string := "Feature mismatch: "

  /**
    The collaborators: `fetch_live_prices` (which may raise an HTTP error),
    `fetch_live_news`, `get_sentiment_score`, `compute_features`, and the
    scaler followed by the classifier's positive-class probability.
   */
  datatype Services<!Prices> = Services(
    livePrices: string -> Result<Prices, HttpError>,
    liveNews: string -> seq<string>,
    sentimentScore: seq<string> -> real,
    computeFeatures: (Prices, real) -> map<string, real>,
    predictProba: seq<real> -> real)

  /** An external call the handler makes. */
  datatype Call = FetchPrices(ticker: string) | FetchNews(ticker: string) | ScoreSentiment | ComputeFeatures | Predict

  /** The handler's response together with the calls it made. */
  datatype Response = Response(result: Result<Prediction, HttpError>, calls: seq<Call>)

  /** `metadata.get("tickers", [])`. */
  function SupportedTickers(md: Metadata): seq<string>
  {
    match md
    case EmptyMetadata => []
    case Loaded(tickers, _, _, _) => tickers
  }

  /**
    `[features[f] for f in feature_names]`: the values in `names` order, or the
    index of the first name with no value (the `KeyError` it raises).
   */
  function Assemble(features: map<string, real>, names: seq<string>): (r: Result<seq<real>, nat>)
    ensures r.Success? <==> forall i :: 0 <= i < |names| ==> names[i] in features
    ensures r.Success? ==> |r.value| == |names|
    ensures r.Success? ==> forall i :: 0 <= i < |names| ==> r.value[i] == features[names[i]]
    ensures r.Failure? ==> r.error < |names| && names[r.error] !in features
    ensures r.Failure? ==> forall j :: 0 <= j < r.error ==> names[j] in features
  {
    if |names| == 0 then Success([])
    else if names[0] !in features then Failure(0)
    else
      match Assemble(features, names[1..])
      case Success(rest) => Success([features[names[0]]] + rest)
      case Failure(i) => Failure(i + 1)
  }

  /** `1 if proba >= threshold else 0`. */
  function Signal(proba: real, threshold: real): (s: int)
    ensures s == 0 || s == 1
    ensures s == 1 <==> proba >= threshold
  {
    if proba >= threshold then 1 else 0
  }

  /** The rule is monotone: raising the probability never turns a buy into a sell. */
  lemma SignalMonotone(p: real, q: real, threshold: real)
    requires p <= q
    ensures Signal(p, threshold) <= Signal(q, threshold)
  {
  }

  /** The handler. */
  function Handle<Prices>(inputTicker: string, md: Metadata, svc: Services<Prices>): (r: Response)
    ensures Upper(inputTicker) !in SupportedTickers(md) ==>
      r == Response(Failure(HttpError(400, UnsupportedTickerPrefix + PyReprList(SupportedTickers(md)))), [])
    ensures r.calls != [] ==> r.calls[0] == FetchPrices(Upper(inputTicker))
    ensures r.result.Success? ==> md.Loaded? && Upper(inputTicker) in md.tickers
    ensures r.result.Success? ==> r.result.value.ticker == Upper(inputTicker)
    ensures r.result.Success? ==> r.result.value.modelTimestamp == md.lastTrainDate
    ensures r.result.Success? ==> (r.result.value.signal == 1 <==> r.result.value.proba >= md.threshold)
    ensures r.result.Success? ==> r.result.value.signal in {0, 1}
    ensures r.result.Success? ==> Predict in r.calls
  {
    var ticker := Upper(inputTicker);
    var supported := SupportedTickers(md);
    if ticker !in supported then
      Response(Failure(HttpError(400, UnsupportedTickerPrefix + PyReprList(supported))), [])
    else
      match svc.livePrices(ticker)
      case Failure(e) => Response(Failure(e), [FetchPrices(ticker)])
      case Success(prices) =>
        var news := svc.liveNews(ticker);
        var sentiment := svc.sentimentScore(news);
        var features := svc.computeFeatures(prices, sentiment);
        var calls := [FetchPrices(ticker), FetchNews(ticker), ScoreSentiment, ComputeFeatures];
        match Assemble(features, md.features)
        case Failure(missing) =>
          Response(Failure(HttpError(500, FeatureMismatchPrefix + PyRepr(md.features[missing]))), calls)
        case Success(row) =>
          var proba := svc.predictProba(row);
          var output := Prediction(ticker, proba, Signal(proba, md.threshold), features, md.lastTrainDate);
          Response(Success(output), calls + [Predict])
  }

  /** With the metadata the process starts with, every ticker is rejected with 400 and nothing is fetched. */
  lemma EmptyMetadataRejectsAll<Prices>(inputTicker: string, svc: Services<Prices>)
    ensures Handle(inputTicker, InitialMetadata, svc).result.Failure?
    ensures Handle(inputTicker, InitialMetadata, svc).result.error.status == 400
    ensures Handle(inputTicker, InitialMetadata, svc).calls == []
  {
  }

  /** An unsupported ticker is answered before any collaborator runs: the response does not depend on them. */
  lemma RejectionIgnoresServices<Prices>(inputTicker: string, md: Metadata, a: Services<Prices>, b: Services<Prices>)
    requires Upper(inputTicker) !in SupportedTickers(md)
    ensures Handle(inputTicker, md, a) == Handle(inputTicker, md, b)
  {
  }

  /** The handler is insensitive to the case of the ticker it is sent. */
  lemma HandleIgnoresCase<Prices>(inputTicker: string, md: Metadata, svc: Services<Prices>)
    ensures Handle(Upper(inputTicker), md, svc) == Handle(inputTicker, md, svc)
  {
    UpperIdempotent(inputTicker);
  }

  /**
    For a supported ticker whose prices fetch succeeds, the classifier sees the
    computed features in exactly the metadata's order; a name with no computed
    value instead fails with 500 "Feature mismatch" naming the first such name.
   */
  lemma FeatureRowInMetadataOrder<Prices>(inputTicker: string, md: Metadata, svc: Services<Prices>)
    requires md.Loaded? && Upper(inputTicker) in md.tickers
    requires svc.livePrices(Upper(inputTicker)).Success?
    ensures var ticker := Upper(inputTicker);
      var prices := svc.livePrices(ticker).value;
      var features := svc.computeFeatures(prices, svc.sentimentScore(svc.liveNews(ticker)));
      var r := Handle(inputTicker, md, svc);
      && (r.result.Success? <==> forall i :: 0 <= i < |md.features| ==> md.features[i] in features)
      && (r.result.Success? ==>
            && r.result.value.calculatedFeatures == features
            && r.result.value.proba == svc.predictProba(seq(|md.features|, i requires 0 <= i < |md.features| => features[md.features[i]])))
      && (r.result.Failure? ==>
            exists i :: 0 <= i < |md.features| && md.features[i] !in features
              && (forall j :: 0 <= j < i ==> md.features[j] in features)
              && r.result.error == HttpError(500, FeatureMismatchPrefix + PyRepr(md.features[i])))
  {
    var ticker := Upper(inputTicker);
    var prices := svc.livePrices(ticker).value;
    var features := svc.computeFeatures(prices, svc.sentimentScore(svc.liveNews(ticker)));
    var a := Assemble(features, md.features);
    if a.Success? {
      assert a.value == seq(|md.features|, i requires 0 <= i < |md.features| => features[md.features[i]]);
    } else {
      var i := a.error;
      assert md.features[i] !in features;
    }
  }
}

=== FILE: rate_limit.dfy ===
/**
  The backend's per-client sliding-window rate limiter
  (`rate_limit_middleware` over `RATE_LIMIT_STORE`). The store maps a client
  key to the timestamps of its recently accepted requests. Each request prunes
  its client's list to the window, is rejected with 429 when the pruned list is
  already full, and otherwise records its own timestamp and is forwarded.

  The critical section has no `await`, so requests are handled one at a time.
  Timestamps are `datetime.now()` readings, written as integer microseconds
  (the resolution of `datetime`); the clock is a parameter of each request.
 */
module RateLimit {
  import opened Common

  /** `MAX_REQUESTS_PER_MINUTE`. */
  const MaxRequestsPerMinute: nat := 5

  /** `RATE_LIMIT_WINDOW_SECONDS`. */
  const RateLimitWindowSeconds: nat := 60

  /** The window as a `timedelta`, in microseconds. */
  const Window: int := RateLimitWindowSeconds * 1_000_000

  /** The bucket of a request that carries no client address. */
  const UnknownClient: string := "unknown"

  const RateLimitedStatus: nat := 429
  const RateLimitedDetail: string := "Rate limit exceeded."

  type Store = map<string, seq<int>>

  /** `request.client.host`, or the shared `"unknown"` bucket. */
  function ClientKey(host: Option<string>): string
  {
    host.GetOr(UnknownClient)
  }

  /** `RATE_LIMIT_STORE.get(key, [])`. */
  function Stored(store: Store, key: string): seq<int>
  {
    if key in store then store[key] else []
  }

  /** The timestamps strictly after `cutoff`, in their original order. */
  function After(ts: seq<int>, cutoff: int): (r: seq<int>)
    ensures |r| <= |ts|
  {
    if |ts| == 0 then []
    else (if ts[0] > cutoff then [ts[0]] else []) + After(ts[1..], cutoff)
  }

  /** The timestamps in the half-open window `(hi - Window, hi]`. */
  function InWindow(ts: seq<int>, hi: int): (r: seq<int>)
    ensures |r| <= |ts|
  {
    if |ts| == 0 then []
    else (if hi - Window < ts[0] <= hi then [ts[0]] else []) + InWindow(ts[1..], hi)
  }

  /** How the middleware answers. */
  datatype Decision = Forwarded | Rejected(status: nat, detail: string)

  datatype Handled = Handled(store: Store, decision: Decision)

  /**
    One request at time `now`. The client's list becomes its timestamps
    strictly after `now - Window`; if that is already full the request is
    rejected with 429 and nothing is recorded, otherwise `now` is appended and
    the request forwarded. No other client's entry changes.
   */
  function Handle(store: Store, host: Option<string>, now: int): (r: Handled)
    ensures var key := ClientKey(host);
      var kept := After(Stored(store, key), now - Window);
      && key in r.store
      && (r.decision.Rejected? <==> |kept| >= MaxRequestsPerMinute)
      && (r.decision.Rejected? ==> r.decision == Rejected(RateLimitedStatus, RateLimitedDetail))
      && (r.decision.Rejected? ==> r.store[key] == kept)
      && (r.decision.Forwarded? ==> r.store[key] == kept + [now])
      && (forall k :: k != key ==> (k in r.store <==> k in store))
      && (forall k :: k != key && k in store ==> r.store[k] == store[k])
  {
    var key := ClientKey(host);
    var pruned := store[key := After(Stored(store, key), now - Window)];
    if |pruned[key]| >= MaxRequestsPerMinute then
      Handled(pruned, Rejected(RateLimitedStatus, RateLimitedDetail))
    else
      Handled(pruned[key := pruned[key] + [now]], Forwarded)
  }

  /** The limiter cannot tell a request without client info from one whose host is literally `"unknown"`. */
  lemma UnknownBucketIsShared(store: Store, now: int)
    ensures Handle(store, None, now) == Handle(store, Some(UnknownClient), now)
  {
  }

  // ---------------------------------------------------------------------------
  // Facts about the filters
  // ---------------------------------------------------------------------------

  /** Pruning keeps exactly the timestamps strictly after the cutoff. */
  lemma {:induction false} AfterKeepsLater(ts: seq<int>, cutoff: int)
    ensures forall x :: x in After(ts, cutoff) <==> x in ts && x > cutoff
  {
    if |ts| > 0 {
      AfterKeepsLater(ts[1..], cutoff);
      assert ts == [ts[0]] + ts[1..];
    }
  }

  lemma {:induction false} AfterAppend(a: seq<int>, b: seq<int>, cutoff: int)
    ensures After(a + b, cutoff) == After(a, cutoff) + After(b, cutoff)
  {
    if |a| == 0 {
      assert a + b == b;
    } else {
      assert (a + b)[0] == a[0];
      assert (a + b)[1..] == a[1..] + b;
      AfterAppend(a[1..], b, cutoff);
    }
  }

  /** Pruning with a later cutoff after an earlier one is pruning with the later one. */
  lemma {:induction false} AfterCompose(ts: seq<int>, early: int, late: int)
    requires early <= late
    ensures After(After(ts, early), late) == After(ts, late)
  {
    if |ts| > 0 {
      var head := if ts[0] > early then [ts[0]] else [];
      AfterAppend(head, After(ts[1..], early), late);
      AfterCompose(ts[1..], early, late);
    }
  }

  /** A later cutoff keeps no more timestamps. */
  lemma {:induction false} AfterShrinks(ts: seq<int>, early: int, late: int)
    requires early <= late
    ensures |After(ts, late)| <= |After(ts, early)|
  {
    if |ts| > 0 {
      AfterShrinks(ts[1..], early, late);
    }
  }

  lemma {:induction false} InWindowAppend(a: seq<int>, b: seq<int>, hi: int)
    ensures InWindow(a + b, hi) == InWindow(a, hi) + InWindow(b, hi)
  {
    if |a| == 0 {
      assert a + b == b;
    } else {
      assert (a + b)[0] == a[0];
      assert (a + b)[1..] == a[1..] + b;
      InWindowAppend(a[1..], b, hi);
    }
  }

  /** When nothing lies beyond `hi`, the window is everything after `hi - Window`. */
  lemma {:induction false} InWindowOfPast(ts: seq<int>, hi: int)
    requires forall x :: x in ts ==> x <= hi
    ensures InWindow(ts, hi) == After(ts, hi - Window)
  {
    if |ts| > 0 {
      assert ts[0] in ts;
      assert forall x :: x in ts[1..] ==> x in ts;
      InWindowOfPast(ts[1..], hi);
    }
  }

  // ---------------------------------------------------------------------------
  // Runs of requests
  // ---------------------------------------------------------------------------

  /** A request as the limiter sees it: its client address, if any, and the clock reading. */
  datatype Arrival = Arrival(host: Option<string>, now: int)

  datatype Processed = Processed(store: Store, decisions: seq<Decision>)

  /** The requests handled in order. */
  function Process(store: Store, arrivals: seq<Arrival>): (p: Processed)
    ensures |p.decisions| == |arrivals|
    decreases |arrivals|
  {
    if |arrivals| == 0 then Processed(store, [])
    else
      var n := |arrivals| - 1;
      var before := Process(store, arrivals[..n]);
      var h := Handle(before.store, arrivals[n].host, arrivals[n].now);
      Processed(h.store, before.decisions + [h.decision])
  }

  /** The timestamps of the forwarded requests of client `key`, in order. */
  function Accepted(arrivals: seq<Arrival>, decisions: seq<Decision>, key: string): seq<int>
    requires |decisions| == |arrivals|
    decreases |arrivals|
  {
    if |arrivals| == 0 then []
    else
      var n := |arrivals| - 1;
      Accepted(arrivals[..n], decisions[..n], key)
        + (if decisions[n].Forwarded? && ClientKey(arrivals[n].host) == key then [arrivals[n].now] else [])
  }

  /** Clock readings never decrease along the run. */
  predicate Chronological(arrivals: seq<Arrival>) {
    forall i, j :: 0 <= i < j < |arrivals| ==> arrivals[i].now <= arrivals[j].now
  }

  /** No stored list is longer than the limit. */
  predicate Bounded(store: Store) {
    forall k :: k in store ==> |store[k]| <= MaxRequestsPerMinute
  }

  /** Every stored list stays within the limit, because the check comes before the append. */
  lemma HandleKeepsBound(store: Store, host: Option<string>, now: int)
    requires Bounded(store)
    ensures Bounded(Handle(store, host, now).store)
  {
  }

  /** From an empty store, every run keeps each list within the limit. */
  lemma {:induction false} ProcessKeepsBound(arrivals: seq<Arrival>)
    ensures Bounded(Process(map[], arrivals).store)
    decreases |arrivals|
  {
    if |arrivals| > 0 {
      var n := |arrivals| - 1;
      ProcessKeepsBound(arrivals[..n]);
      HandleKeepsBound(Process(map[], arrivals[..n]).store, arrivals[n].host, arrivals[n].now);
    }
  }

  /** The last request of a run is handled on the store the rest of the run left behind. */
  lemma ProcessLast(arrivals: seq<Arrival>)
    requires |arrivals| > 0
    ensures var n := |arrivals| - 1;
      var before := Process(map[], arrivals[..n]);
      var h := Handle(before.store, arrivals[n].host, arrivals[n].now);
      && Process(map[], arrivals).store == h.store
      && Process(map[], arrivals).decisions[..n] == before.decisions
      && Process(map[], arrivals).decisions[n] == h.decision
  {
  }

  /** A chronological run's prefix is chronological and lies no later than its last request. */
  lemma ChronologicalPrefix(arrivals: seq<Arrival>)
    requires |arrivals| > 0 && Chronological(arrivals)
    ensures var n := |arrivals| - 1;
      && Chronological(arrivals[..n])
      && forall i :: 0 <= i < n ==> arrivals[..n][i].now <= arrivals[n].now
  {
  }

  /**
    Seen from clock reading `clock`, the stored list and the accepted
    timestamps agree on everything still inside the window.
   */
  predicate Tracks(stored: seq<int>, acc: seq<int>, clock: int) {
    After(stored, clock - Window) == After(acc, clock - Window)
  }

  /** No timestamp lies after `clock`. */
  predicate NoneLater(acc: seq<int>, clock: int) {
    forall x :: x in acc ==> x <= clock
  }

  /**
    One request preserves the correspondence between a client's stored list
    and its accepted timestamps, seen from any later clock reading.
   */
  lemma HandleTracksAccepted(store: Store, host: Option<string>, now: int, acc: seq<int>, key: string, clock: int)
    requires Tracks(Stored(store, key), acc, now)
    requires now <= clock
    ensures var h := Handle(store, host, now);
      var acc' := acc + (if h.decision.Forwarded? && ClientKey(host) == key then [now] else []);
      Tracks(Stored(h.store, key), acc', clock)
  {
    var h := Handle(store, host, now);
    var cut := clock - Window;
    var kept := After(Stored(store, key), now - Window);
    if key != ClientKey(host) {
      assert Stored(h.store, key) == Stored(store, key);
      assert acc + [] == acc;
      AfterCompose(Stored(store, key), now - Window, cut);
      AfterCompose(acc, now - Window, cut);
    } else if h.decision.Rejected? {
      assert Stored(h.store, key) == kept;
      assert acc + [] == acc;
      AfterCompose(Stored(store, key), now - Window, cut);
      AfterCompose(acc, now - Window, cut);
    } else {
      assert Stored(h.store, key) == kept + [now];
      AfterAppend(kept, [now], cut);
      AfterAppend(acc, [now], cut);
      AfterCompose(Stored(store, key), now - Window, cut);
      AfterCompose(acc, now - Window, cut);
    }
  }

  /**
    Seen from any clock reading at or after the last request, a client's
    stored list holds exactly its accepted timestamps that are still inside
    the window, and no accepted timestamp lies in that reading's future.
   */
  lemma {:induction false} StoreTracksAccepted(arrivals: seq<Arrival>, clock: int, key: string)
    requires Chronological(arrivals)
    requires forall i :: 0 <= i < |arrivals| ==> arrivals[i].now <= clock
    ensures var p := Process(map[], arrivals);
      Tracks(Stored(p.store, key), Accepted(arrivals, p.decisions, key), clock)
    ensures var p := Process(map[], arrivals);
      NoneLater(Accepted(arrivals, p.decisions, key), clock)
    decreases |arrivals|
  {
    if |arrivals| > 0 {
      var n := |arrivals| - 1;
      var pre := arrivals[..n];
      var a := arrivals[n];
      var before := Process(map[], pre);
      var p := Process(map[], arrivals);
      ProcessLast(arrivals);
      ChronologicalPrefix(arrivals);
      StoreTracksAccepted(pre, a.now, key);
      var accPre := Accepted(pre, before.decisions, key);
      assert Accepted(arrivals, p.decisions, key)
          == accPre + (if p.decisions[n].Forwarded? && ClientKey(a.host) == key then [a.now] else []);
      HandleTracksAccepted(before.store, a.host, a.now, accPre, key, clock);
    }
  }

  /** One forwarded request keeps every window within the limit, given the limit held before. */
  lemma ForwardKeepsWindow(accPre: seq<int>, now: int, t: int)
    requires |InWindow(accPre, t)| <= MaxRequestsPerMinute
    requires |After(accPre, now - Window)| < MaxRequestsPerMinute
    requires NoneLater(accPre, now)
    ensures |InWindow(accPre + [now], t)| <= MaxRequestsPerMinute
  {
    InWindowAppend(accPre, [now], t);
    if t - Window < now <= t {
      InWindowOfPast(accPre, t);
      AfterShrinks(accPre, now - Window, t - Window);
    }
  }

  /** The accepted timestamps of a run are those of its prefix plus, if forwarded, the last request's. */
  lemma AcceptedLast(arrivals: seq<Arrival>, key: string)
    requires |arrivals| > 0
    ensures var n := |arrivals| - 1;
      var p := Process(map[], arrivals);
      Accepted(arrivals, p.decisions, key)
        == Accepted(arrivals[..n], Process(map[], arrivals[..n]).decisions, key)
           + (if p.decisions[n].Forwarded? && ClientKey(arrivals[n].host) == key then [arrivals[n].now] else [])
  {
    ProcessLast(arrivals);
  }

  /**
    A request forwarded while its client's stored list tracks the accepted
    timestamps keeps every window of that client within the limit.
   */
  lemma ForwardedKeepsWindow(store: Store, acc: seq<int>, a: Arrival, key: string, t: int)
    requires Tracks(Stored(store, key), acc, a.now) && NoneLater(acc, a.now)
    requires ClientKey(a.host) == key
    requires Handle(store, a.host, a.now).decision.Forwarded?
    requires |InWindow(acc, t)| <= MaxRequestsPerMinute
    ensures |InWindow(acc + [a.now], t)| <= MaxRequestsPerMinute
  {
    ForwardKeepsWindow(acc, a.now, t);
  }

  /** The last request of a chronological run keeps the window bound its prefix had. */
  lemma StepKeepsWindow(arrivals: seq<Arrival>, key: string, t: int)
    requires |arrivals| > 0 && Chronological(arrivals)
    requires var pre := arrivals[..|arrivals| - 1];
      |InWindow(Accepted(pre, Process(map[], pre).decisions, key), t)| <= MaxRequestsPerMinute
    ensures |InWindow(Accepted(arrivals, Process(map[], arrivals).decisions, key), t)| <= MaxRequestsPerMinute
  {
    var n := |arrivals| - 1;
    var a := arrivals[n];
    var accPre := Accepted(arrivals[..n], Process(map[], arrivals[..n]).decisions, key);
    AcceptedLast(arrivals, key);
    if Process(map[], arrivals).decisions[n].Forwarded? && ClientKey(a.host) == key {
      ChronologicalPrefix(arrivals);
      ProcessLast(arrivals);
      StoreTracksAccepted(arrivals[..n], a.now, key);
      ForwardedKeepsWindow(Process(map[], arrivals[..n]).store, accPre, a, key, t);
    } else {
      assert accPre + [] == accPre;
    }
  }

  /**
    With clock readings that never decrease, no client ever has more than
    `MaxRequestsPerMinute` forwarded requests in any window `(t - Window, t]`.
   */
  lemma {:induction false} AtMostMaxPerWindow(arrivals: seq<Arrival>, key: string, t: int)
    requires Chronological(arrivals)
    ensures var p := Process(map[], arrivals);
      |InWindow(Accepted(arrivals, p.decisions, key), t)| <= MaxRequestsPerMinute
    decreases |arrivals|
  {
    if |arrivals| > 0 {
      ChronologicalPrefix(arrivals);
      AtMostMaxPerWindow(arrivals[..|arrivals| - 1], key, t);
      StepKeepsWindow(arrivals, key, t);
    }
  }
}

=== FILE: text.dfy ===
/**
  String operations the application relies on, written out here: ASCII upper-casing (JavaScript `toUpperCase`, Python
  `str.upper`), the `maxLength` truncation of an input box, JavaScript's
  `String.prototype.split` on a non-empty separator, decimal rendering of a
  number in a template literal, and Python's `repr` of a list of strings.
 */
module Text {
  import opened Common

  // ---------------------------------------------------------------------------
  // Case
  // ---------------------------------------------------------------------------

  predicate IsAsciiLower(c: char) {
    'a' <= c <= 'z'
  }

  /** Upper-case of one character; only the ASCII letters change. */
  function UpperChar(c: char): (u: char)
    ensures !IsAsciiLower(u)
    ensures !IsAsciiLower(c) ==> u == c
    ensures IsAsciiLower(c) ==> 'A' <= u <= 'Z' && u as int + 32 == c as int
  {
    if IsAsciiLower(c) then (c as int - 32) as char else c
  }

  /** No ASCII lower-case letter anywhere in `s`. */
  predicate IsUpperCase(s: string) {
    forall i :: 0 <= i < |s| ==> !IsAsciiLower(s[i])
  }

  /** `s.toUpperCase()` restricted to ASCII: same length, each letter upper-cased in place. */
  function Upper(s: string): (r: string)
    ensures |r| == |s|
    ensures forall i :: 0 <= i < |s| ==> r[i] == UpperChar(s[i])
    ensures IsUpperCase(r)
  {
    if |s| == 0 then "" else [UpperChar(s[0])] + Upper(s[1..])
  }

  /** Upper-casing an already upper-case string changes nothing. */
  lemma UpperOfUpperCase(s: string)
    requires IsUpperCase(s)
    ensures Upper(s) == s
  {
  }

  /** Upper-casing twice is upper-casing once. */
  lemma UpperIdempotent(s: string)
    ensures Upper(Upper(s)) == Upper(s)
  {
    UpperOfUpperCase(Upper(s));
  }

  /** The first `n` characters, or all of `s` when it is shorter (an input's `maxLength`). */
  function Take(s: string, n: nat): (r: string)
    ensures |r| <= n && |r| <= |s|
    ensures |r| == if |s| <= n then |s| else n
    ensures r <= s
    ensures |s| <= n ==> r == s
  {
    if |s| <= n then s else s[..n]
  }

  // ---------------------------------------------------------------------------
  // Searching and splitting
  // ---------------------------------------------------------------------------

  /** `pat` occurs in `s` starting at index `k`. */
  predicate MatchAt(s: string, pat: string, k: nat) {
    k + |pat| <= |s| && s[k..k + |pat|] == pat
  }

  predicate Contains(s: string, pat: string) {
    exists k: nat :: k <= |s| && MatchAt(s, pat, k)
  }

  /** The first occurrence of `pat` in `s` at or after `from`. */
  function IndexOfFrom(s: string, pat: string, from: nat): (r: Option<nat>)
    requires from <= |s|
    ensures r.Some? ==> from <= r.value && MatchAt(s, pat, r.value)
    ensures r.Some? ==> forall j: nat :: from <= j < r.value ==> !MatchAt(s, pat, j)
    ensures r.None? ==> forall j: nat :: from <= j ==> !MatchAt(s, pat, j)
    decreases |s| - from
  {
    if MatchAt(s, pat, from) then Some(from)
    else if from == |s| then None
    else IndexOfFrom(s, pat, from + 1)
  }

  /** The first occurrence of `pat` in `s` (JavaScript `indexOf`, with `None` for -1). */
  function IndexOf(s: string, pat: string): (r: Option<nat>)
    ensures r.Some? ==> MatchAt(s, pat, r.value)
    ensures r.Some? ==> forall j: nat :: j < r.value ==> !MatchAt(s, pat, j)
    ensures r.None? ==> !Contains(s, pat)
  {
    IndexOfFrom(s, pat, 0)
  }

  /** A match inside a prefix is a match in the whole string. */
  lemma MatchInPrefix(s: string, pat: string, m: nat, j: nat)
    requires m <= |s|
    ensures MatchAt(s[..m], pat, j) <==> j + |pat| <= m && MatchAt(s, pat, j)
  {
    if j + |pat| <= m {
      assert s[..m][j..j + |pat|] == s[j..j + |pat|];
    }
  }

  /** Searching a prefix finds the whole string's first match iff that match lies inside the prefix. */
  lemma {:induction false} IndexOfPrefix(s: string, pat: string, m: nat)
    requires m <= |s|
    ensures IndexOf(s[..m], pat) ==
              (if IndexOf(s, pat).Some? && IndexOf(s, pat).value + |pat| <= m
               then IndexOf(s, pat) else None)
  {
    var whole := IndexOf(s, pat);
    var part := IndexOf(s[..m], pat);
    if part.Some? {
      var p := part.value;
      MatchInPrefix(s, pat, m, p);
      assert Contains(s, pat);
      var w := whole.value;
      MatchInPrefix(s, pat, m, w);
    } else if whole.Some? {
      MatchInPrefix(s, pat, m, whole.value);
    }
  }

  /** `parts` glued back together with `sep` between neighbours (JavaScript `join`). */
  function Join(parts: seq<string>, sep: string): string
  {
    if |parts| == 0 then ""
    else if |parts| == 1 then parts[0]
    else parts[0] + sep + Join(parts[1..], sep)
  }

  /**
    JavaScript `s.split(sep)` for a non-empty separator: the text between
    successive leftmost non-overlapping occurrences of `sep`. The result is
    never empty, rejoining it gives `s` back, and no piece contains `sep`.
   */
  function Split(s: string, sep: string): (parts: seq<string>)
    requires |sep| > 0
    ensures |parts| >= 1
    ensures parts[0] == Before(s, sep)
    ensures Join(parts, sep) == s
    ensures forall i :: 0 <= i < |parts| ==> !Contains(parts[i], sep)
    decreases |s|
  {
    match IndexOf(s, sep)
    case None => [s]
    case Some(k) =>
      var rest := Split(s[k + |sep|..], sep);
      assert s == s[..k] + sep + s[k + |sep|..] by {
        assert s[k..k + |sep|] == sep;
      }
      NoMatchBeforeFirst(s, sep, k);
      [s[..k]] + rest
  }

  /** `split` returns a single piece exactly when the separator does not occur. */
  lemma SplitOnePiece(s: string, sep: string)
    requires |sep| > 0
    ensures |Split(s, sep)| == 1 <==> !Contains(s, sep)
  {
    match IndexOf(s, sep)
    case None =>
    case Some(k) =>
      assert MatchAt(s, sep, k);
  }

  /** The text before the first occurrence of `sep` does not contain `sep`. */
  lemma NoMatchBeforeFirst(s: string, sep: string, k: nat)
    requires |sep| > 0
    requires IndexOf(s, sep) == Some(k)
    ensures !Contains(s[..k], sep)
  {
    forall j: nat | j <= k
      ensures !MatchAt(s[..k], sep, j)
    {
      MatchInPrefix(s, sep, k, j);
    }
  }

  /** The text of `s` before the first occurrence of `sep`, or all of `s` when there is none. */
  function Before(s: string, sep: string): (r: string)
    ensures r <= s
  {
    match IndexOf(s, sep)
    case None => s
    case Some(k) => s[..k]
  }

  /**
    The text before the first `" | "`, cut again before its first space, is the
    text before the first space: the separator `" | "` begins with a space, so
    the first space never lies beyond it.
   */
  lemma {:induction false} BeforeBarThenSpace(s: string)
    ensures Before(Before(s, " | "), " ") == Before(s, " ")
  {
    match IndexOf(s, " | ")
    case None =>
    case Some(k) =>
      assert MatchAt(s, " ", k) by {
        assert s[k..k + 3] == " | ";
        assert s[k..k + 1] == [s[k]] == " ";
      }
      assert Contains(s, " ");
      var j := IndexOf(s, " ").value;
      IndexOfPrefix(s, " ", k);
      assert s[..k][..j] == s[..j];
  }

  // ---------------------------------------------------------------------------
  // Numbers
  // ---------------------------------------------------------------------------

  predicate IsDigit(c: char) {
    '0' <= c <= '9'
  }

  function DigitChar(d: nat): (c: char)
    requires d < 10
    ensures IsDigit(c)
  {
    ('0' as int + d) as char
  }

  function DigitValue(c: char): nat
    requires IsDigit(c)
  {
    c as int - '0' as int
  }

  /** The decimal text of `n`, as a template literal renders a non-negative integer. */
  function Decimal(n: nat): (r: string)
    ensures |r| >= 1
    ensures forall i :: 0 <= i < |r| ==> IsDigit(r[i])
    ensures n >= 10 ==> r[0] != '0'
  {
    if n < 10 then [DigitChar(n)] else Decimal(n / 10) + [DigitChar(n % 10)]
  }

  /** The value of a string of decimal digits. */
  function ParseDecimal(s: string): nat
    requires forall i :: 0 <= i < |s| ==> IsDigit(s[i])
  {
    if |s| == 0 then 0 else ParseDecimal(s[..|s| - 1]) * 10 + DigitValue(s[|s| - 1])
  }

  /** Reading back a rendered number gives the number: rendering loses nothing. */
  lemma {:induction false} DecimalRoundTrip(n: nat)
    ensures ParseDecimal(Decimal(n)) == n
  {
    if n >= 10 {
      var r := Decimal(n);
      assert r[..|r| - 1] == Decimal(n / 10);
      DecimalRoundTrip(n / 10);
    }
  }

  /** Distinct numbers render as distinct text. */
  lemma DecimalInjective(m: nat, n: nat)
    requires Decimal(m) == Decimal(n)
    ensures m == n
  {
    DecimalRoundTrip(m);
    DecimalRoundTrip(n);
  }

  // ---------------------------------------------------------------------------
  // Python repr
  // ---------------------------------------------------------------------------

  /** Python `repr` of a string that holds no quote or backslash: the text in single quotes. */
  function PyRepr(s: string): string
  {
    "'" + s + "'"
  }

  function PyReprItems(xs: seq<string>): string
  {
    if |xs| == 0 then ""
    else if |xs| == 1 then PyRepr(xs[0])
    else PyRepr(xs[0]) + ", " + PyReprItems(xs[1..])
  }

  /** Python `repr` (and `str`) of a list of strings: `['A', 'B']`. */
  function PyReprList(xs: seq<string>): (r: string)
    ensures |r| >= 2 && r[0] == '[' && r[|r| - 1] == ']'
    ensures xs == [] <==> r == "[]"
  {
    "[" + PyReprItems(xs) + "]"
  }

  /** A pattern found in either half of a concatenation is found in the whole. */
  lemma ContainsInConcat(a: string, b: string, pat: string)
    ensures Contains(a, pat) ==> Contains(a + b, pat)
    ensures Contains(b, pat) ==> Contains(a + b, pat)
  {
    if Contains(a, pat) {
      var k: nat :| k <= |a| && MatchAt(a, pat, k);
      assert (a + b)[k..k + |pat|] == a[k..k + |pat|];
      assert MatchAt(a + b, pat, k);
    }
    if Contains(b, pat) {
      var k: nat :| k <= |b| && MatchAt(b, pat, k);
      assert (a + b)[|a| + k..|a| + k + |pat|] == b[k..k + |pat|];
      assert MatchAt(a + b, pat, |a| + k);
    }
  }

  /** Every item of the list appears, quoted, in the rendered items. */
  lemma {:induction false} PyReprItemsNamesEach(xs: seq<string>, i: nat)
    requires i < |xs|
    ensures Contains(PyReprItems(xs), PyRepr(xs[i]))
  {
    var head := PyRepr(xs[0]);
    if |xs| == 1 || i == 0 {
      assert MatchAt(head, head, 0);
      if |xs| > 1 {
        ContainsInConcat(head, ", " + PyReprItems(xs[1..]), head);
        assert head + ", " + PyReprItems(xs[1..]) == head + (", " + PyReprItems(xs[1..]));
      } else {
        assert PyReprItems(xs) == head;
      }
    } else {
      PyReprItemsNamesEach(xs[1..], i - 1);
      assert xs[1..][i - 1] == xs[i];
      ContainsInConcat(head + ", ", PyReprItems(xs[1..]), PyRepr(xs[i]));
    }
  }

  /** The rendered list names every one of its items in quotes. */
  lemma PyReprListNamesEach(xs: seq<string>, i: nat)
    requires i < |xs|
    ensures Contains(PyReprList(xs), PyRepr(xs[i]))
  {
    PyReprItemsNamesEach(xs, i);
    ContainsInConcat("[", PyReprItems(xs), PyRepr(xs[i]));
    ContainsInConcat("[" + PyReprItems(xs), "]", PyRepr(xs[i]));
  }
}

=== FILE: wire.dfy ===
/**
  The JSON shape the `/predict/live` endpoint returns on success
  (`LivePredictionOutput`), shared by the backend that builds it and the
  dashboard that displays it.
 */
module Wire {

  /**
    `{ticker, proba, signal, calculated_features, model_timestamp}`. The
    feature snapshot is a dictionary, so a key the dashboard asks for may be
    missing; `signal` is an integer that nothing checks to be 0 or 1.
   */
  datatype Prediction = Prediction(
    ticker: string,
    proba: real,
    signal: int,
    calculatedFeatures: map<string, real>,
    modelTimestamp: string)

  /** The five feature keys the dashboard reads, in the order it shows them. */
  const FeatureKeys: seq<string> := ["sma_10", "rsi", "vol_20", "sentiment", "sentiment_ma"]
}
